=== FILE: README.md ===
# Dawn FM broadcast clock, modelled in Dafny

The server simulates an always-on radio station that plays one hour-long
audio file in a loop. Every listener hears "what would be playing now", as
if the station had run without a break since a virtual start instant.
This project models the arithmetic behind that illusion and proves
properties of it:

- **Track table** (`timestamps.dfy`, `schedule.dfy`). `parseTime` turns
  `"MM:SS"` into milliseconds. The table `STATION_DATA` is the track list
  with `triggerMs` added to each record, sorted by `triggerMs`. The sort is
  stable, as `Array.prototype.sort` is.
- **Broadcast clock** (`clock.dfy`). A stored uptime is adopted at startup.
  `SERVER_START_TIME` is `now - uptime`. The loop position is
  `(now - start) % 3600000`, with JavaScript's sign-of-dividend remainder.
  The five-second autosave writes that position back as the new uptime.
- **Track resolver** (`resolver.dfy`). This is the `/sync` lookup. The
  active track is the last one whose trigger is at or before the position.
  When no trigger is, it falls back to the final track. The next index is
  `(i + 1) % n`. The wait is measured to the next trigger, or to the loop
  end when the next index wraps around to 0.
- **Start byte** (`offset.dfy`). A new `/stream` connection starts at
  `floor(pos / 3600000 * fileSize)`. It gets no body when that offset is
  unusable.
- **Looping stream** (`looping.dfy`). `playLoop` is modelled as a state
  machine that emits byte indices. At end-of-file it reopens at byte 0 and
  keeps the response open. A read error ends the response. A client close
  stops all reading.
- **Handlers** (`endpoints.dfy`). `/sync` and `/stream` are put together
  from the parts above. Wall-clock time and the file size are parameters.

Three facts about server.js shape the model:

- The autosave writes only `{ uptime }` (server.js:49). No track index is
  stored, and resume does no snap-to-track reconciliation.
- The loop length is the constant `TOTAL_AUDIO_DURATION_MS`, 3,600,000 ms
  (server.js:24). It is not derived from the schedule.
- `parseTime` has no error path (server.js:11-14). Well-formed input is
  its precondition.

One behaviour is worth knowing. If the first trigger is later than 00:00,
a position before it falls back to the final track. `/sync` then reports
the wait to the loop end, but the first track becomes active at its own
trigger, which is earlier (`TrackResolver.FallbackWaitsForLoopEnd`). When
the table starts at 00:00, as the properties `ActiveUntilDeadline` and
`ChangesAtDeadline` assume, the reported wait is exact.

## Model

| member | source | states |
|---|---|---|
| Timestamps.ColonIndex | server.js:12 | the split point is the first ':' of the string, with no ':' before it |
| Timestamps.ParseTime | server.js:11-14 | a parsed trigger is a whole number of seconds in milliseconds |
| Timestamps.ParseTimestampRoundTrip | server.js:11-14 | a zero-padded "MM:SS" written from minutes and seconds is well-formed and parses back to (minutes*60 + seconds)*1000 |
| Timestamps.ThreeMinutes | server.js:11-14 | "03:00" parses to 180000 |
| Schedule.Extend | server.js:18-20 | a table record keeps the timestamp and metadata of its list record, and its offset is the parse of its own timestamp |
| Schedule.SortByTrigger | server.js:21 | the sorted table is ascending by trigger and a permutation of its input |
| Schedule.SortIsStable | server.js:21 | for every trigger value, the records sharing it keep their relative order from the list |
| Schedule.BuildSchedule | server.js:18-21 | the table has one record per list record, is sorted ascending by trigger, is a permutation of the extended list, and every record's offset is the parse of its timestamp |
| Schedule.BuildScheduleFaithful | server.js:18-21 | every table record is the extension of some list record, and tied records appear in list order |
| BroadcastClock.JsRem | server.js:48 | JavaScript's remainder lies in [0, d) for a non-negative dividend and in (-d, 0] for a negative one, and differs from the dividend by a multiple of d |
| BroadcastClock.ResumedUptime | server.js:28-39 | a stored numeric uptime is adopted (the zero the truthiness test skips gives the same value); a missing or unreadable file, a missing field or a non-number give 0 |
| BroadcastClock.StartTime | server.js:28-42 | at the startup instant the loop position is the resumed uptime reduced (with JavaScript's remainder) modulo the loop length, and at every instant t, before or after startup, it is (uptime + t - now0) reduced the same way, as for `SERVER_START_TIME = now0 - uptime` |
| BroadcastClock.LoopPosition | server.js:90-91 | from the start on, the position lies in [0, 3600000); before it, in (-3600000, 0]; it is always congruent to the elapsed time modulo the loop length |
| BroadcastClock.Checkpoint | server.js:47-48 | the autosaved uptime lies in [0, 3600000) once the start has passed and in (-3600000, 0] before it (JavaScript's remainder, the way a negative uptime gets stored), and is always congruent to the elapsed time modulo the loop length |
| BroadcastClock.PositionTracksWallClock | server.js:150-153 | within one pass of the loop, the position advances by exactly the elapsed wall-clock time |
| BroadcastClock.PositionIsPeriodic | server.js:150-153 | one loop length later the position is the same |
| BroadcastClock.CheckpointRestore | server.js:28-52 | restarting from any autosaved uptime puts the position at exactly that uptime |
| BroadcastClock.RestartResumesFromCheckpoint | server.js:28-52 | after a restart from a checkpoint, k ms later the position is (checkpoint + k) mod the loop length |
| TrackResolver.FindLastAtOrBefore | server.js:156 | the result is -1 or an index whose trigger is at or before the position, and every later index's trigger is after it |
| TrackResolver.Resolve | server.js:155-169 | the active index is the active track (the last at or before the position, else the final one), the next index is active + 1, wrapping to 0 after the last track (the source's `% length`), and the wait runs to the next trigger or, on wrap-around, to the loop end |
| TrackResolver.ActiveIsUnique | server.js:156-157 | at every position at most one index satisfies the active-track rule |
| TrackResolver.TimeUntilNextBounds | server.js:163-169 | with all triggers inside the loop and the position inside the loop, the wait is positive and at most one loop, and on wrap-around it is the loop length minus the position |
| TrackResolver.ActiveUntilDeadline | server.js:156-169 | for a sorted table starting at 00:00, the active track does not change before the reported wait has elapsed |
| TrackResolver.ChangesAtDeadline | server.js:160-169 | for a strictly sorted table starting at 00:00, the reported next track is the active one once the wait has elapsed |
| TrackResolver.FallbackWaitsForLoopEnd | server.js:156-169 | before a late first trigger, the fallback reports the wait to the loop end although the first track becomes active sooner |
| TrackResolver.TwoTrackExample | server.js:150-169 | with tracks at 0 and 180000, position 179999 gives track 0 with wait 1, and position 3599999 gives track 1 with wait 1 |
| StreamOffset.StartByte | server.js:92 | the start byte is the floor of pos*fileSize/3600000: its multiple of the loop length lies within one loop length below pos*fileSize |
| StreamOffset.OpenStream | server.js:92-106 | inside the loop a connection gets no body exactly when the file is empty; at every non-negative position playback starts exactly when the guard as written accepts the start byte; a negative position gives no body (guard corrected, see Findings); playback starts from the start byte, which lies inside the file |
| StreamOffset.StartByteMonotone | server.js:92 | a later position never gives an earlier start byte |
| StreamOffset.StartByteInFile | server.js:89-92 | inside the loop, the start byte of a non-empty file lies in [0, fileSize) |
| StreamOffset.NegativeOffsetPassesGuard | server.js:90-106 | 1 ms before the start the position is -1, the start byte into 36,000,000 bytes is -10, and the guard as written accepts it |
| StreamOffset.HalfwayExample | server.js:89-92 | position 1800000 in a 36,000,000-byte file starts at byte 18000000 |
| LoopingStream.Next | server.js:111-131 | only a read error ends the response; a read error or a client close closes a streaming connection and writes nothing; a closed connection stays closed and writes nothing; a pull writes at most the current byte and keeps streaming |
| LoopingStream.NothingAfterClose | server.js:122-131 | after a read error or a client close, no later event writes another byte and the connection stays closed |
| LoopingStream.ClosedIsSilent | server.js:129-131 | once closed, no event writes a byte or ends the response |
| LoopingStream.RunIsCyclic | server.js:111-120 | for any events, the bytes written are start, start+1, … modulo the file size: after the last byte comes byte 0 |
| LoopingStream.EndsOnlyOnReadError | server.js:114-125 | an ended response implies a read error occurred; without a read error or client close the connection is still streaming |
| LoopingStream.CyclicSuccessor | server.js:117-119 | every written byte is followed by its successor modulo the file size |
| LoopingStream.TailWrapsToStart | server.js:117-120 | a listener starting ten bytes before the end gets bytes up to fileSize-1 and then byte 0 |
| LoopingStream.Play | server.js:111-134 | driving a fresh connection with n pulls writes exactly the cyclic run of n bytes from the start byte, and the response stays open |
| Endpoints.HandleSync | server.js:149-178 | an empty table gives a server error; otherwise the reply carries the request time, the loop position, and the metadata and timestamp of the active track, with the wait running from the position to the next track's trigger, or to the loop end after the last track; from the start on, with all triggers inside the loop, the wait lies in (0, 3600000] |
| Endpoints.HandleStream | server.js:79-106 | a connection gets no body exactly when the file is empty or the loop position is negative (corrected guard, see Findings); from the start on, exactly when the file is empty; playback starts at the start byte of the current loop position, inside the file |
| Endpoints.StreamFollowsSync | server.js:89-92 | /stream starts at the byte for the offset /sync reports at the same instant, and a later connection in the same loop pass never starts earlier |
| Endpoints.RestartedStreamStartsAtCheckpoint | server.js:42-92 | right after a restart from a checkpoint, /stream starts at the byte for the checkpointed position |

## Findings

| source | as written | input that shows it | evidently intended | confidence | as-written member | corrected member |
|---|---|---|---|---|---|---|
| server.js:103 | the guard `isNaN(startByte) \|\| startByte >= fileSize` has no lower bound | wall clock 1 ms behind `SERVER_START_TIME`, for example after the clock steps back or after a negative stored uptime (a truthy number) is adopted: position -1, start byte -10 into 36,000,000 bytes, accepted, so `createReadStream` is called with a negative `start` and throws a RangeError after the 200 header is sent, which the guard exists to prevent | also end the response when the start byte is negative | not executed; medium | StreamOffset.NegativeOffsetPassesGuard | StreamOffset.OpenStream |

## Left out

- Express routing, static serving, `/cover`, response headers and the
  `Cache-Control` directive are framework glue.
- The missing-file 404 of `/stream` is left out. The file size is a
  parameter, and `existsSync`/`statSync` are file-system I/O.
- `readFileSync`, `writeFile`, `createReadStream`, pipe backpressure and
  `destroy` are file-system I/O. The stored state is an already-parsed
  `StoredState`, and the stream emits byte indices one at a time.
- JSON parsing of the track list and state file is left out. Stored
  uptimes are integers only. Fractional values and non-finite values are
  not modelled. `1e400` would parse to `Infinity` and lead to the NaN
  branch of the guard. With integers, that branch cannot be reached.
- `Date.now()` and the five-second `setInterval` are timing. `now` is a
  parameter, and `Checkpoint` is the value one timer tick writes.
- StreamOffset.StartByte: exact integer floor in place of the double
  `(pos / durationMs) * fileSize`. This idealises rounding, which can put
  the result one byte lower near exact multiples.
- Timestamps.ParseTime: only two non-empty digit fields around one colon
  are modelled. `Number` also accepts whitespace, signs, decimals, empty
  fields, exponents (`"1e1"`), `0x`/`0o`/`0b` prefixes and `"Infinity"`,
  and gives NaN otherwise. A third field is ignored by the source.
- Endpoints.HandleStream: uses the corrected guard. When the wall clock is
  behind `SERVER_START_TIME` the position is negative, and the source passes
  the negative start byte (for example -10) on to `playLoop` (server.js:103,
  134). There `fs.createReadStream` rejects a negative `start` with a
  RangeError. The 200 header is already written at that point, so the
  connection is torn down. The model gives no body instead.
- Track-index reconciliation on resume is left out because the source does
  not do it.
- `public/script.js` is the browser client. It is outside this model.

=== FILE: arith.dfy ===
/** Facts about Dafny's Euclidean `%` used by the clock and the stream. */
module ModArith {

  lemma MulAtLeast(a: int, n: int)
    requires a >= 1 && n > 0
    ensures a * n >= n
  {
  }

  /** `q * n + r` leaves remainder `r` for any quotient `q`. */
  lemma ModOfMultiplePlus(q: int, r: int, n: int)
    requires n > 0 && 0 <= r < n
    ensures (q * n + r) % n == r
  {
    var x := q * n + r;
    var q', r' := x / n, x % n;
    assert (q - q') * n == r' - r;
    if q > q' {
      MulAtLeast(q - q', n);
    } else if q < q' {
      MulAtLeast(q' - q, n);
    }
  }

  /** Adding one divisor does not change the remainder. */
  lemma ModShift(a: nat, n: nat)
    requires n > 0
    ensures (n + a) % n == a % n
  {
    ModOfMultiplePlus(a / n + 1, a % n, n);
    assert n + a == (a / n + 1) * n + a % n;
  }

  /** Subtracting the remainder leaves a multiple of the divisor. */
  lemma RemainderLeavesMultiple(a: int, d: int)
    requires d > 0
    ensures (a - a % d) % d == 0
  {
    assert a - a % d == (a / d) * d;
    ModOfMultiplePlus(a / d, 0, d);
  }

  /** The negation of a multiple is a multiple. */
  lemma NegatedMultiple(x: int, d: int)
    requires d > 0 && x % d == 0
    ensures (-x) % d == 0
  {
    assert -x == (-(x / d)) * d;
    ModOfMultiplePlus(-(x / d), 0, d);
  }
}

=== FILE: clock.dfy ===
/** The virtual broadcast clock of server.js.

    At startup the stored uptime (if any) is adopted and the moment the
    station "virtually" started is set to `now - uptime`. The loop position
    at any instant is `(now - start) % 3600000`, computed with JavaScript's
    `%`, whose remainder takes the sign of the dividend. Every five seconds
    the position is written back as the new stored uptime.

    Wall-clock time is a parameter; the five-second timer and the file
    reads and writes are not modelled. */
module BroadcastClock {
  import opened ModArith

  /** `TOTAL_AUDIO_DURATION_MS` (one hour); /sync repeats the same literal. */
  const LoopDurationMs: nat := 3600000

  /** JavaScript's `a % d` for a positive divisor: truncating division, so
      the remainder has the sign of `a`. */
  function JsRem(a: int, d: int): (r: int)
    requires d > 0
    ensures a >= 0 ==> 0 <= r < d
    ensures a < 0 ==> -d < r <= 0
    ensures (a - r) % d == 0
  {
    if a >= 0 then
      RemainderLeavesMultiple(a, d);
      a % d
    else
      RemainderLeavesMultiple(-a, d);
      NegatedMultiple(-a - (-a) % d, d);
      -((-a) % d)
  }

  /** The `uptime` field of the parsed state file. */
  datatype UptimeField = Absent | Number(value: int) | OtherType

  /** The state file as startup finds it: missing, failing to read or parse
      (the `catch`), or parsed. */
  datatype StoredState = NoStateFile | Unreadable | Parsed(uptime: UptimeField)

  /** `existingUptime`: a stored uptime is taken when it is a truthy number.
      Zero is falsy, but skipping it gives the same value, so every stored
      number is adopted; everything else starts the loop at 0. */
  function ResumedUptime(st: StoredState): (u: int)
    ensures st.Parsed? && st.uptime.Number? ==> u == st.uptime.value
    ensures !(st.Parsed? && st.uptime.Number?) ==> u == 0
  {
    if st.Parsed? && st.uptime.Number? && st.uptime.value != 0 then st.uptime.value else 0
  }

  /** `SERVER_START_TIME`, computed once from the startup instant. */
  function StartTime(now0: int, st: StoredState): (start: int)
    ensures LoopPosition(now0, start) == JsRem(ResumedUptime(st), LoopDurationMs)
    ensures forall t ::
      LoopPosition(t, start) == JsRem(ResumedUptime(st) + (t - now0), LoopDurationMs)
  {
    now0 - ResumedUptime(st)
  }

  /** `uptime % durationMs` with `uptime = now - SERVER_START_TIME`. */
  function LoopPosition(now: int, start: int): (pos: int)
    ensures now >= start ==> 0 <= pos < LoopDurationMs
    ensures now < start ==> -(LoopDurationMs as int) < pos <= 0
    ensures (now - start - pos) % LoopDurationMs == 0
  {
    JsRem(now - start, LoopDurationMs)
  }

  /** The uptime the autosave timer writes at instant `t`. */
  function Checkpoint(t: int, start: int): (uptime: int)
    ensures t >= start ==> 0 <= uptime < LoopDurationMs
    ensures t < start ==> -(LoopDurationMs as int) < uptime <= 0
    ensures (t - start - uptime) % LoopDurationMs == 0
  {
    LoopPosition(t, start)
  }

  /** Within one pass of the loop the position advances exactly as the wall
      clock does. */
  lemma PositionTracksWallClock(start: int, t1: int, t2: int)
    requires start <= t1 <= t2
    requires LoopPosition(t1, start) + (t2 - t1) < LoopDurationMs
    ensures LoopPosition(t2, start) == LoopPosition(t1, start) + (t2 - t1)
  {
  }

  /** One full loop later the position is the same. */
  lemma PositionIsPeriodic(start: int, t: int)
    requires t >= start
    ensures LoopPosition(t + LoopDurationMs, start) == LoopPosition(t, start)
  {
  }

  /** Checkpoint/restore agreement: restarting from what the autosave wrote
      at any instant puts the loop position at exactly that value. */
  lemma CheckpointRestore(start: int, t: int, now0: int)
    ensures var u := Checkpoint(t, start);
      LoopPosition(now0, StartTime(now0, Parsed(Number(u)))) == u
  {
  }

  /** After a restart from a checkpoint the broadcast carries on from the
      checkpointed position, as if it had been paused while the process
      was down. */
  lemma RestartResumesFromCheckpoint(start: int, t: int, now0: int, k: nat)
    requires t >= start
    ensures var u := Checkpoint(t, start);
      LoopPosition(now0 + k, StartTime(now0, Parsed(Number(u)))) == (u + k) % LoopDurationMs
  {
  }
}

=== FILE: endpoints.dfy ===
/** The /stream and /sync handlers of server.js, composed from the clock,
    the resolver and the offset mapping. `now` is the `Date.now()` of the
    request and `start` is `SERVER_START_TIME`. */
module Endpoints {
  import opened Schedule
  import opened BroadcastClock
  import opened TrackResolver
  import opened StreamOffset

  /** The JSON body of /sync. */
  datatype SyncReply<M> = SyncReply(
    serverTime: int,
    currentOffset: int,
    nowPlaying: M,
    formattedTime: string,
    nextUpdateIn: int)

  /** The outcome of a /sync request: the reply, or the 500 Express sends
      when the handler throws. With an empty table `findLastIndex` gives -1,
      index `length - 1` is -1 too, and reading `.triggerMs` of the missing
      next track throws a TypeError. */
  datatype SyncOutcome<M> = Reply(body: SyncReply<M>) | ServerError

  function HandleSync<M>(now: int, start: int, table: seq<Track<M>>): (r: SyncOutcome<M>)
    ensures r.ServerError? <==> |table| == 0
    ensures r.Reply? ==> r.body.serverTime == now
    ensures r.Reply? ==> r.body.currentOffset == LoopPosition(now, start)
    ensures r.Reply? && now >= start ==> 0 <= r.body.currentOffset < LoopDurationMs
    ensures r.Reply? ==> exists i :: (IsActive(table, r.body.currentOffset, i)
      && r.body.nowPlaying == table[i].meta && r.body.formattedTime == table[i].triggerAt
      && r.body.nextUpdateIn
         == (if i + 1 == |table| then LoopDurationMs else table[i + 1].triggerMs) - r.body.currentOffset)
    ensures r.Reply? && now >= start && TriggersWithinLoop(table)
      ==> 0 < r.body.nextUpdateIn <= LoopDurationMs
  {
    if |table| == 0 then ServerError
    else
      var pos := LoopPosition(now, start);
      var res := Resolve(table, pos);
      assert now >= start && TriggersWithinLoop(table) ==> 0 < res.timeUntilNext <= LoopDurationMs by {
        if now >= start && TriggersWithinLoop(table) {
          TimeUntilNextBounds(table, pos);
        }
      }
      var i := res.active;
      assert res.timeUntilNext
          == (if i + 1 == |table| then LoopDurationMs else table[i + 1].triggerMs) - pos;
      Reply(SyncReply(now, pos, table[res.active].meta, table[res.active].triggerAt, res.timeUntilNext))
  }

  /** /stream for a file of `fileSize` bytes. A connection gets no body when
      the file is empty or the position is negative (the wall clock is behind
      the start time). In the latter case the source passes the negative
      offset on to `fs.createReadStream`, which rejects it with a RangeError
      after the 200 header has already been written. */
  function HandleStream(now: int, start: int, fileSize: nat): (o: Opening)
    ensures now >= start ==> (o.NoBody? <==> fileSize == 0)
    ensures o.NoBody? <==> (fileSize == 0 || LoopPosition(now, start) < 0)
    ensures o.Play? ==> o.startByte == StartByte(LoopPosition(now, start), fileSize)
    ensures o.Play? ==> o.startByte < fileSize
  {
    OpenStream(LoopPosition(now, start), fileSize)
  }

  /** At one instant, /stream starts at the byte that corresponds to the
      offset /sync reports, and a listener who connects later never starts
      earlier in the file within the same pass of the loop. */
  lemma StreamFollowsSync<M>(now: int, later: int, start: int, table: seq<Track<M>>, fileSize: nat)
    requires |table| > 0 && fileSize > 0
    requires start <= now <= later
    requires LoopPosition(now, start) + (later - now) < LoopDurationMs
    ensures HandleStream(now, start, fileSize)
         == Play(StartByte(HandleSync(now, start, table).body.currentOffset, fileSize))
    ensures HandleStream(now, start, fileSize).startByte <= HandleStream(later, start, fileSize).startByte
  {
    PositionTracksWallClock(start, now, later);
    StartByteMonotone(LoopPosition(now, start), LoopPosition(later, start), fileSize);
  }

  /** A listener connecting right after a restart from a checkpoint starts
      at the byte for the checkpointed position. */
  lemma RestartedStreamStartsAtCheckpoint(start: int, t: int, now0: int, fileSize: nat)
    requires start <= t && fileSize > 0
    ensures var u := Checkpoint(t, start);
      HandleStream(now0, StartTime(now0, Parsed(Number(u))), fileSize) == Play(StartByte(u, fileSize))
  {
  }
}

=== FILE: looping.dfy ===
/** The looping byte stream of a /stream connection (`playLoop` in
    server.js), as an explicit state machine.

    A read stream is opened at the start byte and piped into the response
    with `end: false`. When it reaches the end of the file a new read stream
    is opened at byte 0 and the response stays open; a read error ends the
    response; the client closing the connection destroys the current read
    stream, so nothing more is read. The model emits the index of every byte
    written to the response. */
module LoopingStream {
  import opened ModArith

  datatype CloseCause = ReadFailed | ClientGone

  /** `Streaming(offset)`: the current read stream's next byte is `offset`;
      `offset == fileSize` means it has reached end-of-file. */
  datatype Conn = Streaming(offset: nat) | Closed(cause: CloseCause)

  /** What happens next on a connection: the pipe pulls from the read
      stream, the read stream fails, or the client disconnects. */
  datatype Event = Pull | ReadError | ClientClose

  /** One step: the new state, the byte indices written, and whether the
      response was ended. */
  datatype Step = Step(conn: Conn, emitted: seq<nat>, endsResponse: bool)

  predicate Valid(c: Conn, fileSize: nat) {
    fileSize > 0 && (c.Streaming? ==> c.offset <= fileSize)
  }

  function Next(c: Conn, fileSize: nat, e: Event): (r: Step)
    requires Valid(c, fileSize)
    ensures Valid(r.conn, fileSize)
    ensures r.endsResponse <==> c.Streaming? && e == ReadError
    ensures c.Closed? ==> r.conn == c && r.emitted == []
    ensures c.Streaming? && e == Pull ==> r.conn.Streaming?
    ensures c.Streaming? && e != Pull ==> r.conn.Closed? && r.emitted == []
    ensures |r.emitted| == 1 ==> r.emitted[0] == c.offset < fileSize
  {
    match c
    case Closed(_) => Step(c, [], false)
    case Streaming(o) =>
      match e
      case Pull =>
        if o < fileSize then Step(Streaming(o + 1), [o], false)
        else Step(Streaming(0), [], false)  // 'end': playLoop(0), response kept open
      case ReadError => Step(Closed(ReadFailed), [], true)
      case ClientClose => Step(Closed(ClientGone), [], false)
  }

  /** The outcome of a sequence of events. */
  datatype Trace = Trace(conn: Conn, emitted: seq<nat>, ended: bool)

  function Run(c: Conn, fileSize: nat, events: seq<Event>): (t: Trace)
    requires Valid(c, fileSize)
    ensures Valid(t.conn, fileSize)
    decreases |events|
  {
    if |events| == 0 then Trace(c, [], false)
    else
      var s := Next(c, fileSize, events[0]);
      var rest := Run(s.conn, fileSize, events[1..]);
      Trace(rest.conn, s.emitted + rest.emitted, s.endsResponse || rest.ended)
  }

  /** `out` is the cyclic run of byte indices starting at `from`. */
  predicate Cyclic(out: seq<nat>, from: nat, fileSize: nat)
    requires fileSize > 0
  {
    forall k :: 0 <= k < |out| ==> out[k] == (from + k) % fileSize
  }

  /** A closed connection reads and writes nothing more. */
  lemma {:induction false} ClosedIsSilent(c: Conn, fileSize: nat, events: seq<Event>)
    requires Valid(c, fileSize) && c.Closed?
    ensures Run(c, fileSize, events) == Trace(c, [], false)
    decreases |events|
  {
    if |events| > 0 {
      ClosedIsSilent(c, fileSize, events[1..]);
    }
  }

  /** After a read error or a client close nothing more is written, whatever
      happens later on the connection, and the connection stays closed. */
  lemma {:induction false} NothingAfterClose(c: Conn, fileSize: nat, pre: seq<Event>, e: Event, post: seq<Event>)
    requires Valid(c, fileSize) && e != Pull
    ensures Run(c, fileSize, pre + [e] + post).emitted == Run(c, fileSize, pre).emitted
    ensures Run(c, fileSize, pre + [e] + post).conn.Closed?
    decreases |pre|
  {
    if |pre| == 0 {
      assert pre + [e] + post == [e] + post;
      var s := Next(c, fileSize, e);
      assert ([e] + post)[1..] == post;
      ClosedIsSilent(s.conn, fileSize, post);
    } else {
      var s := Next(c, fileSize, pre[0]);
      assert (pre + [e] + post)[1..] == pre[1..] + [e] + post;
      NothingAfterClose(s.conn, fileSize, pre[1..], e, post);
    }
  }

  /** Whatever the events, the bytes written form one continuous cyclic run
      from the start offset: after the last byte of the file comes byte 0. */
  lemma {:induction false} RunIsCyclic(c: Conn, fileSize: nat, events: seq<Event>)
    requires Valid(c, fileSize) && c.Streaming?
    ensures Cyclic(Run(c, fileSize, events).emitted, c.offset, fileSize)
    decreases |events|
  {
    if |events| > 0 {
      var s := Next(c, fileSize, events[0]);
      var rest := Run(s.conn, fileSize, events[1..]).emitted;
      if s.conn.Closed? {
        ClosedIsSilent(s.conn, fileSize, events[1..]);
      } else {
        RunIsCyclic(s.conn, fileSize, events[1..]);
        if s.emitted == [] {
          // end-of-file: the next read stream starts at byte 0
          CyclicFromEnd(rest, fileSize);
        } else {
          CyclicCons(c.offset, rest, fileSize);
        }
      }
    }
  }

  lemma CyclicFromEnd(out: seq<nat>, fileSize: nat)
    requires fileSize > 0 && Cyclic(out, 0, fileSize)
    ensures Cyclic(out, fileSize, fileSize)
  {
    forall k | 0 <= k < |out|
      ensures out[k] == (fileSize + k) % fileSize
    {
      ModShift(k, fileSize);
    }
  }

  lemma CyclicCons(from: nat, rest: seq<nat>, fileSize: nat)
    requires from < fileSize && Cyclic(rest, from + 1, fileSize)
    ensures Cyclic([from] + rest, from, fileSize)
  {
  }

  /** The response is ended only by a read error: reaching the end of the
      file never ends it, and without a read error or a client close the
      connection is still streaming. */
  lemma {:induction false} EndsOnlyOnReadError(c: Conn, fileSize: nat, events: seq<Event>)
    requires Valid(c, fileSize)
    ensures Run(c, fileSize, events).ended ==> ReadError in events
    ensures c.Streaming? && ReadError !in events && ClientClose !in events
        ==> Run(c, fileSize, events).conn.Streaming?
    decreases |events|
  {
    if |events| > 0 {
      var s := Next(c, fileSize, events[0]);
      EndsOnlyOnReadError(s.conn, fileSize, events[1..]);
      assert events == [events[0]] + events[1..];
    }
  }

  /** Each byte written is followed by its successor modulo the file size. */
  lemma CyclicSuccessor(out: seq<nat>, from: nat, fileSize: nat, k: nat)
    requires fileSize > 0 && Cyclic(out, from, fileSize)
    requires k + 1 < |out|
    ensures out[k + 1] == (out[k] + 1) % fileSize
  {
    var q := (from + k) / fileSize;
    assert from + k == q * fileSize + out[k];
    assert from + k + 1 == q * fileSize + (out[k] + 1);
    if out[k] + 1 < fileSize {
      ModOfMultiplePlus(q, out[k] + 1, fileSize);
    } else {
      assert from + k + 1 == (q + 1) * fileSize;
      ModOfMultiplePlus(q + 1, 0, fileSize);
    }
  }

  /** A listener who tunes in ten bytes before the end of the file gets
      those ten bytes and then byte 0, with the response still open. */
  lemma TailWrapsToStart(fileSize: nat, events: seq<Event>)
    requires fileSize >= 10
    requires |Run(Streaming(fileSize - 10), fileSize, events).emitted| >= 11
    ensures var out := Run(Streaming(fileSize - 10), fileSize, events).emitted;
      out[9] == fileSize - 1 && out[10] == 0
  {
    RunIsCyclic(Streaming(fileSize - 10), fileSize, events);
    ModShift(0, fileSize);
  }

  function Pulls(n: nat): (es: seq<Event>)
    ensures |es| == n && ReadError !in es && ClientClose !in es
  {
    seq(n, _ => Pull)
  }

  lemma {:induction false} RunAppend(c: Conn, fileSize: nat, events: seq<Event>, e: Event)
    requires Valid(c, fileSize)
    ensures var t := Run(c, fileSize, events);
      var s := Next(t.conn, fileSize, e);
      Run(c, fileSize, events + [e]) == Trace(s.conn, t.emitted + s.emitted, t.ended || s.endsResponse)
    decreases |events|
  {
    if |events| == 0 {
      assert events + [e] == [e];
    } else {
      var s0 := Next(c, fileSize, events[0]);
      assert (events + [e])[1..] == events[1..] + [e];
      RunAppend(s0.conn, fileSize, events[1..], e);
    }
  }

  /** Drives a fresh connection with pulls until `n` bytes have been
      written: they are the cyclic run from the start byte, and the
      response is still open. */
  method Play(startByte: nat, fileSize: nat, n: nat) returns (out: seq<nat>, pulls: nat)
    requires startByte < fileSize
    ensures |out| == n
    ensures Cyclic(out, startByte, fileSize)
    ensures Run(Streaming(startByte), fileSize, Pulls(pulls)).emitted == out
    ensures !Run(Streaming(startByte), fileSize, Pulls(pulls)).ended
    ensures Run(Streaming(startByte), fileSize, Pulls(pulls)).conn.Streaming?
  {
    var c := Streaming(startByte);
    out, pulls := [], 0;
    while |out| < n
      invariant |out| <= n
      invariant Valid(c, fileSize) && c.Streaming?
      invariant Run(Streaming(startByte), fileSize, Pulls(pulls)) == Trace(c, out, false)
      decreases 2 * (n - |out|) + (if c.offset < fileSize then 0 else 1)
    {
      var s := Next(c, fileSize, Pull);
      RunAppend(Streaming(startByte), fileSize, Pulls(pulls), Pull);
      assert Pulls(pulls) + [Pull] == Pulls(pulls + 1);
      c, out, pulls := s.conn, out + s.emitted, pulls + 1;
    }
    RunIsCyclic(Streaming(startByte), fileSize, Pulls(pulls));
  }
}

=== FILE: offset.dfy ===
/** The byte offset at which a new /stream connection starts reading the
    audio file (server.js), and the guard that ends the response with no
    body when the offset is unusable.

    The source computes `Math.floor((pos / durationMs) * fileSize)` in
    double precision; the model uses the exact `floor(pos * fileSize /
    durationMs)`. Dafny's `/` with a positive divisor rounds toward minus
    infinity, as `Math.floor` does, also for a negative position. */
module StreamOffset {
  import opened BroadcastClock

  /** `startByte` for loop position `pos` and a file of `fileSize` bytes. */
  function StartByte(pos: int, fileSize: nat): (b: int)
    ensures b * LoopDurationMs <= pos * fileSize < (b + 1) * LoopDurationMs
  {
    (pos * fileSize) / LoopDurationMs
  }

  /** The guard as written, `!(isNaN(startByte) || startByte >= fileSize)`.
      With integer inputs the quotient is never NaN, so only the upper bound
      is tested, and a negative offset gets through. */
  predicate GuardAcceptsAsWritten(b: int, fileSize: nat) {
    !(b >= fileSize)
  }

  /** The guard as evidently intended: an offset inside the file. */
  predicate ValidStartByte(b: int, fileSize: nat) {
    0 <= b < fileSize
  }

  /** How a /stream connection begins: no body at all, or looping playback
      from a byte of the file. */
  datatype Opening = NoBody | Play(startByte: nat)

  /** The connection set-up, using the corrected guard. Inside the loop a
      connection gets no body exactly when the file is empty; at every
      non-negative position the corrected guard agrees with the guard as
      written; before the start (a negative position) there is no body. */
  function OpenStream(pos: int, fileSize: nat): (o: Opening)
    ensures 0 <= pos < LoopDurationMs ==> (o.NoBody? <==> fileSize == 0)
    ensures pos >= 0 ==> (o.Play? <==> GuardAcceptsAsWritten(StartByte(pos, fileSize), fileSize))
    ensures pos < 0 ==> o.NoBody?
    ensures o.Play? ==> o.startByte == StartByte(pos, fileSize) && o.startByte < fileSize
  {
    var b := StartByte(pos, fileSize);
    if ValidStartByte(b, fileSize) then Play(b) else NoBody
  }

  /** A later loop position never starts earlier in the file. */
  lemma StartByteMonotone(p1: int, p2: int, fileSize: nat)
    requires p1 <= p2
    ensures StartByte(p1, fileSize) <= StartByte(p2, fileSize)
  {
  }

  /** Inside the loop the offset lies inside a non-empty file. */
  lemma StartByteInFile(pos: int, fileSize: nat)
    requires 0 <= pos < LoopDurationMs && fileSize > 0
    ensures 0 <= StartByte(pos, fileSize) < fileSize
  {
  }

  /** The counterexample: with the wall clock 1 ms behind the start time
      the loop position is -1, the offset into a 36,000,000-byte file is
      -10, and the guard as written lets it through to the file read. */
  lemma NegativeOffsetPassesGuard(start: int)
    ensures LoopPosition(start - 1, start) == -1
    ensures StartByte(-1, 36000000) == -10
    ensures GuardAcceptsAsWritten(-10, 36000000)
    ensures !ValidStartByte(-10, 36000000)
    ensures OpenStream(-1, 36000000) == NoBody
  {
  }

  /** Half-way through the hour a 36,000,000-byte file starts at its middle. */
  lemma HalfwayExample()
    ensures OpenStream(1800000, 36000000) == Play(18000000)
  {
  }
}

=== FILE: resolver.dfy ===
/** Track resolution of the /sync handler in server.js: the active track is
    the last one whose trigger is at or before the loop position (falling
    back to the final track), the next track follows it cyclically, and the
    time until the next change is measured to the next trigger, or to the
    loop end when the next track wraps around to index 0. */
module TrackResolver {
  import opened Schedule
  import opened BroadcastClock

  /** `findLastIndex(t => t.triggerMs <= pos)`: scans from the end, -1 when
      no trigger is at or before `pos`. */
  function FindLastAtOrBefore<M>(s: seq<Track<M>>, pos: int): (r: int)
    ensures -1 <= r < |s|
    ensures r >= 0 ==> s[r].triggerMs <= pos
    ensures forall j :: r < j < |s| ==> s[j].triggerMs > pos
  {
    if |s| == 0 then -1
    else if s[|s| - 1].triggerMs <= pos then |s| - 1
    else FindLastAtOrBefore(s[..|s| - 1], pos)
  }

  /** Track `i` is the active one at `pos`: the last whose trigger is at or
      before `pos`, or the final track when no trigger is. */
  predicate IsActive<M>(s: seq<Track<M>>, pos: int, i: int) {
    && 0 <= i < |s|
    && (forall j :: i < j < |s| ==> s[j].triggerMs > pos)
    && (s[i].triggerMs <= pos || (i == |s| - 1 && forall j :: 0 <= j < |s| ==> s[j].triggerMs > pos))
  }

  /** At every position exactly one track is active. */
  lemma ActiveIsUnique<M>(s: seq<Track<M>>, pos: int, i: int, k: int)
    requires IsActive(s, pos, i) && IsActive(s, pos, k)
    ensures i == k
  {
  }

  datatype Resolution = Resolution(active: nat, next: nat, timeUntilNext: int)

  /** The resolution /sync performs for loop position `pos`. */
  function Resolve<M>(s: seq<Track<M>>, pos: int): (r: Resolution)
    requires |s| > 0
    ensures r.active < |s| && r.next < |s|
    ensures r.next == if r.active + 1 < |s| then r.active + 1 else 0
    ensures IsActive(s, pos, r.active)
    ensures r.timeUntilNext
         == (if r.next == 0 then LoopDurationMs else s[r.next].triggerMs) - pos
  {
    var found := FindLastAtOrBefore(s, pos);
    var active := if found == -1 then |s| - 1 else found;
    var next := if active + 1 == |s| then 0 else active + 1;
    var nextTrigger := if next == 0 then LoopDurationMs as int else s[next].triggerMs;
    Resolution(active, next, nextTrigger - pos)
  }

  predicate TriggersWithinLoop<M>(s: seq<Track<M>>) {
    forall i :: 0 <= i < |s| ==> s[i].triggerMs < LoopDurationMs
  }

  /** For a position inside the loop the reported wait is positive and at
      most one loop; when the next track wraps around it is the distance to
      the loop end. */
  lemma TimeUntilNextBounds<M>(s: seq<Track<M>>, pos: int)
    requires |s| > 0 && TriggersWithinLoop(s)
    requires 0 <= pos < LoopDurationMs
    ensures 0 < Resolve(s, pos).timeUntilNext <= LoopDurationMs
    ensures Resolve(s, pos).next == 0 ==> Resolve(s, pos).timeUntilNext == LoopDurationMs - pos
  {
  }

  /** For a sorted table starting at 00:00, the active track does not change
      before the reported wait has elapsed. */
  lemma ActiveUntilDeadline<M>(s: seq<Track<M>>, pos: int, p: int)
    requires |s| > 0 && Sorted(s) && s[0].triggerMs == 0 && TriggersWithinLoop(s)
    requires 0 <= pos <= p < pos + Resolve(s, pos).timeUntilNext
    ensures Resolve(s, p).active == Resolve(s, pos).active
  {
  }

  predicate StrictlySorted<M>(s: seq<Track<M>>) {
    forall i, j :: 0 <= i < j < |s| ==> s[i].triggerMs < s[j].triggerMs
  }

  /** For a strictly sorted table starting at 00:00, once the reported wait
      has elapsed the next track is the active one. */
  lemma ChangesAtDeadline<M>(s: seq<Track<M>>, pos: int)
    requires |s| > 0 && StrictlySorted(s) && s[0].triggerMs == 0 && TriggersWithinLoop(s)
    requires 0 <= pos < LoopDurationMs
    ensures var r := Resolve(s, pos);
      Resolve(s, (pos + r.timeUntilNext) % LoopDurationMs).active == r.next
  {
  }

  /** When the first trigger is later than the position, the fallback to
      the final track reports the wait to the loop end although the first
      track becomes active earlier, at its own trigger. */
  lemma FallbackWaitsForLoopEnd<M>(s: seq<Track<M>>, pos: int)
    requires |s| >= 2 && StrictlySorted(s) && TriggersWithinLoop(s)
    requires 0 <= pos < s[0].triggerMs
    ensures Resolve(s, pos).active == |s| - 1
    ensures Resolve(s, pos).timeUntilNext == LoopDurationMs - pos
    ensures Resolve(s, s[0].triggerMs).active == 0
    ensures s[0].triggerMs - pos < Resolve(s, pos).timeUntilNext
  {
  }

  /** Two tracks at 00:00 and 03:00 in a one-hour loop. */
  lemma TwoTrackExample()
    ensures var s := [Track("00:00", "A", 0), Track("03:00", "B", 180000)];
      && Resolve(s, 179999).active == 0 && Resolve(s, 179999).timeUntilNext == 1
      && Resolve(s, 3599999).active == 1 && Resolve(s, 3599999).timeUntilNext == 1
  {
  }
}

=== FILE: schedule.dfy ===
/** The track table (`STATION_DATA` in server.js): every record of the
    track list keeps all of its fields and gains `triggerMs`, the parsed
    trigger timestamp; the table is then sorted ascending by `triggerMs`.

    `Array.prototype.sort` is stable (ECMAScript 2019), so tracks that share
    a trigger keep their order from the list. The sort is modelled as a
    stable insertion sort, and stability is proved per trigger value. */
module Schedule {
  import opened Timestamps

  /** A record of the track list: its trigger timestamp and opaque metadata. */
  datatype RawTrack<M> = RawTrack(triggerAt: string, meta: M)

  /** A record of the table: the same fields plus the parsed trigger offset. */
  datatype Track<M> = Track(triggerAt: string, meta: M, triggerMs: nat)

  predicate AllWellFormed<M>(raws: seq<RawTrack<M>>) {
    forall i :: 0 <= i < |raws| ==> WellFormed(raws[i].triggerAt)
  }

  /** A table record whose offset is the parse of its own timestamp. */
  predicate Consistent<M>(t: Track<M>) {
    WellFormed(t.triggerAt) && t.triggerMs == ParseTime(t.triggerAt)
  }

  predicate Sorted<M>(s: seq<Track<M>>) {
    forall i, j :: 0 <= i < j < |s| ==> s[i].triggerMs <= s[j].triggerMs
  }

  /** The spread `{ ...track, triggerMs: parseTime(track.triggerAt) }`. */
  function Extend<M>(t: RawTrack<M>): (e: Track<M>)
    requires WellFormed(t.triggerAt)
    ensures Consistent(e)
    ensures e.triggerAt == t.triggerAt && e.meta == t.meta
  {
    Track(t.triggerAt, t.meta, ParseTime(t.triggerAt))
  }

  function ExtendAll<M>(raws: seq<RawTrack<M>>): (es: seq<Track<M>>)
    requires AllWellFormed(raws)
    ensures |es| == |raws|
    ensures forall i :: 0 <= i < |raws| ==> es[i] == Extend(raws[i])
  {
    if |raws| == 0 then [] else [Extend(raws[0])] + ExtendAll(raws[1..])
  }

  /** Puts `x` in front of the first record whose trigger is not earlier. */
  function Insert<M>(x: Track<M>, s: seq<Track<M>>): (r: seq<Track<M>>)
    requires Sorted(s)
    ensures Sorted(r)
    ensures multiset(r) == multiset(s) + multiset{x}
    ensures |r| == |s| + 1
    ensures r[0] == x || (|s| > 0 && r[0] == s[0])
  {
    if |s| == 0 || x.triggerMs <= s[0].triggerMs then [x] + s
    else
      assert s == [s[0]] + s[1..];
      [s[0]] + Insert(x, s[1..])
  }

  function SortByTrigger<M>(s: seq<Track<M>>): (r: seq<Track<M>>)
    ensures Sorted(r)
    ensures multiset(r) == multiset(s)
  {
    if |s| == 0 then []
    else
      assert s == [s[0]] + s[1..];
      Insert(s[0], SortByTrigger(s[1..]))
  }

  /** The records of `s` whose trigger is `ms`, in their order in `s`. */
  function WithTrigger<M>(s: seq<Track<M>>, ms: nat): seq<Track<M>> {
    if |s| == 0 then []
    else (if s[0].triggerMs == ms then [s[0]] else []) + WithTrigger(s[1..], ms)
  }

  lemma {:induction false} InsertKeepsTieOrder<M>(x: Track<M>, s: seq<Track<M>>, ms: nat)
    requires Sorted(s)
    ensures WithTrigger(Insert(x, s), ms)
         == (if x.triggerMs == ms then [x] else []) + WithTrigger(s, ms)
  {
    if |s| == 0 || x.triggerMs <= s[0].triggerMs {
      var r := Insert(x, s);
      assert r[1..] == s;
    } else {
      var r := Insert(x, s);
      assert r[1..] == Insert(x, s[1..]);
      InsertKeepsTieOrder(x, s[1..], ms);
    }
  }

  /** Stability: sorting keeps, for every trigger value, the records with
      that trigger in their original relative order. */
  lemma {:induction false} SortIsStable<M>(s: seq<Track<M>>, ms: nat)
    ensures WithTrigger(SortByTrigger(s), ms) == WithTrigger(s, ms)
  {
    if |s| > 0 {
      SortIsStable(s[1..], ms);
      InsertKeepsTieOrder(s[0], SortByTrigger(s[1..]), ms);
    }
  }

  /** The table built at startup from the parsed track list. */
  function BuildSchedule<M>(raws: seq<RawTrack<M>>): (table: seq<Track<M>>)
    requires AllWellFormed(raws)
    ensures |table| == |raws|
    ensures Sorted(table)
    ensures multiset(table) == multiset(ExtendAll(raws))
    ensures forall i :: 0 <= i < |table| ==> Consistent(table[i])
  {
    var es := ExtendAll(raws);
    var table := SortByTrigger(es);
    assert forall i :: 0 <= i < |table| ==> table[i] in multiset(es);
    table
  }

  /** Every record of the table is the extension of some record of the
      list, with its timestamp and metadata unchanged, and for every trigger
      value the tied records appear in list order. */
  lemma BuildScheduleFaithful<M>(raws: seq<RawTrack<M>>, ms: nat)
    requires AllWellFormed(raws)
    ensures forall i :: 0 <= i < |BuildSchedule(raws)| ==>
      exists j :: 0 <= j < |raws| && BuildSchedule(raws)[i] == Extend(raws[j])
    ensures WithTrigger(BuildSchedule(raws), ms) == WithTrigger(ExtendAll(raws), ms)
  {
    var es := ExtendAll(raws);
    var table := BuildSchedule(raws);
    forall i | 0 <= i < |table|
      ensures exists j :: 0 <= j < |raws| && table[i] == Extend(raws[j])
    {
      assert table[i] in multiset(es);
      var j :| 0 <= j < |es| && es[j] == table[i];
      assert table[i] == Extend(raws[j]);
    }
    SortIsStable(es, ms);
  }
}

=== FILE: timestamps.dfy ===
/** Parsing of the "MM:SS" trigger timestamps of the track list into
    milliseconds (`parseTime` in server.js).

    `parseTime` splits on ':' and reads each field with JavaScript's `Number`.
    Only the well-formed case — two non-empty decimal digit fields around a
    single colon — is modelled; it is the precondition of `ParseTime`. */
module Timestamps {

  const MsPerSecond: nat := 1000
  const SecondsPerMinute: nat := 60

  predicate IsDigit(c: char) {
    '0' <= c <= '9'
  }

  predicate AllDigits(s: string) {
    forall i :: 0 <= i < |s| ==> IsDigit(s[i])
  }

  function DigitValue(c: char): (d: nat)
    requires IsDigit(c)
    ensures d < 10
  {
    (c as int) - ('0' as int)
  }

  function DigitChar(d: nat): (c: char)
    requires d < 10
    ensures IsDigit(c) && DigitValue(c) == d
  {
    ('0' as int + d) as char
  }

  /** The value `Number` gives a decimal digit string; leading zeros are allowed. */
  function DigitsValue(s: string): nat
    requires AllDigits(s)
  {
    if |s| == 0 then 0 else 10 * DigitsValue(s[..|s| - 1]) + DigitValue(s[|s| - 1])
  }

  /** Index of the first ':' of `s`, or `|s|` when there is none. */
  function ColonIndex(s: string): (k: nat)
    ensures k <= |s|
    ensures k < |s| ==> s[k] == ':'
    ensures forall i :: 0 <= i < k ==> s[i] != ':'
  {
    if |s| == 0 then 0
    else if s[0] == ':' then 0
    else 1 + ColonIndex(s[1..])
  }

  /** "MM:SS" in the loose sense the parser accepts: a minutes field and a
      seconds field, each a non-empty run of decimal digits. Neither field is
      limited to two digits and seconds are not limited to 59. */
  predicate WellFormed(s: string) {
    var k := ColonIndex(s);
    0 < k < |s| - 1 && AllDigits(s[..k]) && AllDigits(s[k + 1..])
  }

  function Minutes(s: string): nat
    requires WellFormed(s)
  {
    DigitsValue(s[..ColonIndex(s)])
  }

  function Seconds(s: string): nat
    requires WellFormed(s)
  {
    DigitsValue(s[ColonIndex(s) + 1..])
  }

  /** `parseTime`: the trigger offset of a timestamp, in milliseconds. */
  function ParseTime(s: string): (ms: nat)
    requires WellFormed(s)
    ensures ms % MsPerSecond == 0
  {
    (Minutes(s) * SecondsPerMinute + Seconds(s)) * MsPerSecond
  }

  // ---------------------------------------------------------------------
  // An independent writer of timestamps, used as the parser's partner.
  // ---------------------------------------------------------------------

  /** Decimal digits of `n`, most significant first, without leading zeros. */
  function ShowNat(n: nat): (s: string)
    ensures |s| > 0
  {
    if n < 10 then [DigitChar(n)] else ShowNat(n / 10) + [DigitChar(n % 10)]
  }

  /** Two-digit zero padding, as the track list writes "03:00". */
  function Pad2(n: nat): string {
    if n < 10 then ['0'] + ShowNat(n) else ShowNat(n)
  }

  function Timestamp(minutes: nat, seconds: nat): string {
    Pad2(minutes) + [':'] + Pad2(seconds)
  }

  lemma {:induction false} ShowNatReadsBack(n: nat)
    ensures AllDigits(ShowNat(n))
    ensures DigitsValue(ShowNat(n)) == n
  {
    if n >= 10 {
      ShowNatReadsBack(n / 10);
      var s := ShowNat(n);
      assert s[..|s| - 1] == ShowNat(n / 10);
    }
  }

  lemma {:induction false} LeadingZeroIgnored(s: string)
    requires AllDigits(s)
    ensures AllDigits(['0'] + s)
    ensures DigitsValue(['0'] + s) == DigitsValue(s)
  {
    if |s| > 0 {
      var t := ['0'] + s;
      assert t[..|t| - 1] == ['0'] + s[..|s| - 1];
      LeadingZeroIgnored(s[..|s| - 1]);
    }
  }

  lemma Pad2ReadsBack(n: nat)
    ensures |Pad2(n)| > 0
    ensures AllDigits(Pad2(n))
    ensures DigitsValue(Pad2(n)) == n
  {
    ShowNatReadsBack(n);
    if n < 10 {
      LeadingZeroIgnored(ShowNat(n));
    }
  }

  lemma ColonIndexAfterDigits(a: string, b: string)
    requires AllDigits(a)
    ensures ColonIndex(a + [':'] + b) == |a|
  {
    var s := a + [':'] + b;
    assert s[|a|] == ':';
    assert forall i :: 0 <= i < |a| ==> s[i] == a[i];
  }

  /** Writing a timestamp and parsing it back gives
      `(minutes * 60 + seconds) * 1000`, e.g. "03:00" is 180000 ms. */
  lemma ParseTimestampRoundTrip(minutes: nat, seconds: nat)
    ensures WellFormed(Timestamp(minutes, seconds))
    ensures ParseTime(Timestamp(minutes, seconds)) == (minutes * 60 + seconds) * 1000
  {
    var a, b := Pad2(minutes), Pad2(seconds);
    var s := Timestamp(minutes, seconds);
    Pad2ReadsBack(minutes);
    Pad2ReadsBack(seconds);
    ColonIndexAfterDigits(a, b);
    assert s[..|a|] == a;
    assert s[|a| + 1..] == b;
  }

  lemma ThreeMinutes()
    ensures WellFormed("03:00") && ParseTime("03:00") == 180000
  {
    ParseTimestampRoundTrip(3, 0);
    assert Timestamp(3, 0) == "03:00";
  }
}
